=== FILE: README.md ===
# beerbudget in Dafny

A model of the budget allocator of `beerbudget.py`, a small command-line
program that spreads a beer budget over a list of beers. The model covers:

- `Input.find_bags`. It starts from an empty bag. It makes passes over the
  beers in list order. Each pass buys one of every beer whose price still fits
  strictly below the budget. It stops after a pass that leaves the money spent
  unchanged. Then it reports, for each beer, a count and a line cost, followed
  by a total.
- `Input.parse_beers`. Each `--beer` argument becomes a beer. The last token is
  the price. The other tokens, joined with single spaces, are the name.
- `Input.parse_search`. Each `--search` argument becomes its tokens joined with
  single spaces.

Modules, one per component:

- `Beers` (beers.dfy): the `Beer` record and the bag. A bag is the sequence of
  purchases, and each purchase is the position of the bought beer in the list.
  The source's bag holds references to the beer objects of its list, so the
  position is that reference. `Cost` is the running total (`price0`).
- `Allocation` (allocation.dfy): one pass (`Pass`, `RunPass`) and the whole
  loop. `Greedy` is a functional reference definition: passes repeated until
  one adds no cost. `Allocate` mirrors the source's `while` loop, including
  its sentinel `price = 1`, and is proved equal to `Greedy`.
- `Reporting` (reporting.dfy): the report as written (`Report`), which counts
  by name. Also a corrected report (`ReportByLine`), which counts each beer's
  own purchases.
- `BeerBudget` (beerbudget.dfy): `find_bags` as a whole (`FindBags`), the
  single-beer closed form, and worked examples.
- `Words` (words.dfy): joining tokens with single spaces, and its inverse,
  splitting at spaces.
- `Prices` (prices.dfy): reading a price token, with its inverse, writing an
  integer in decimal.
- `Arguments` (arguments.dfy): `parse_beers` and `parse_search`.

Prices and the budget are integers in one common unit. The budget is already
an integer in the source (whole kronor). The sentinel start value 1 is kept
literally.

Notes on the code that the model keeps as written:

- The fit test is `price0 + beer.price < budget`, strictly less. So the budget
  is never spent exactly: budget 1000 with a beer at 200 buys 4 bottles for
  800, not 5 for 1000.
- Prices are not checked. A zero-priced beer is bought once in every pass. A
  negative price can keep the loop running forever. The model therefore
  requires non-negative prices for the allocator.
- A `--beer` argument with a single token gets the empty name, since joining
  no tokens gives the empty string.

## Model

| member | source | states |
|---|---|---|
| `Allocation.Pass` | beerbudget.py:166-169 | one pass buys only beers at or after its start position; if anything is bought, the running total plus the cost of the purchases stays strictly below the budget; with non-negative prices a pass never lowers the total; a pass that adds no cost leaves every positive-priced beer from its start position not fitting |
| `Allocation.Passes` | beerbudget.py:164-169 | repeated passes terminate, because the money spent rises strictly below the budget after every pass that does not end the loop; they only extend the bag; the final cost stays below the budget; no positive-priced beer fits at the end |
| `Allocation.Greedy` | beerbudget.py:160-169 | the allocated bag refers only to listed beers; a non-empty bag costs at least 0 and strictly less than the budget; for a budget above 1, no positive-priced beer fits any more |
| `Allocation.RunPass` | beerbudget.py:166-169 | the inner `for` loop appends exactly the purchases of one pass, and the running total stays equal to the bag's cost and below the budget |
| `Allocation.Allocate` | beerbudget.py:160-169 | the `while` loop with its sentinel start terminates for non-negative prices; its bag equals `Greedy`; `spent` is the bag's cost; a budget of at most 1 leaves the bag empty and spends 0; a non-empty bag costs strictly less than the budget; at exit no positive-priced beer fits |
| `Reporting.NameCountIsMultiplicity` | beerbudget.py:173 | the count printed for a beer is how often its name occurs among the purchases' names |
| `Reporting.LinesTotalIsPurchaseTotal` | beerbudget.py:171-174 | the total summed line by line (count × price) equals the sum over purchases, where each purchase contributes the price of every beer sharing its name |
| `Reporting.PurchaseTotalDistinct` | beerbudget.py:171-174 | when no two beers share a name, that total is exactly the money spent |
| `Reporting.Report` | beerbudget.py:171-176 | one count per beer, in list order, equal to the multiplicity of its name among the purchases; total is the purchase-side sum; with distinct names the total is the money spent; an empty bag reports all counts 0 and total 0 |
| `Reporting.LineTotalIsCost` | beerbudget.py:171-174 | counting each beer's own purchases, the count × price total is the money spent, whatever the names |
| `Reporting.ReportByLine` | beerbudget.py:171-176 | corrected report: each count is the number of purchases of that very beer, and the total equals the money spent |
| `BeerBudget.FindBags` | beerbudget.py:160-176 | allocation plus report: the bag is the greedy one and costs strictly less than the budget when non-empty; a budget of at most 1 gives an empty bag, all counts 0 and total 0; the bag is saturated at the end; counts are per-name multiplicities; total is the money spent when names are distinct |
| `BeerBudget.SingleBeer` | beerbudget.py:164-169 | one beer priced p > 0 with a budget above 1 is bought (budget − 1) / p times: the most bottles whose cost is strictly below the budget |
| `BeerBudget.SingleBeerReport` | beerbudget.py:160-176 | for one beer the report shows (budget − 1) / p bottles, and both the money spent and the reported total are that many times p |
| `BeerBudget.OmnipolloExample` | beerbudget.py:12-14 | budget 1000 with omnipollo leon at 29 buys 34 bottles for 986, and the report shows 34 bottles and total 986 |
| `BeerBudget.StrictFitExample` | beerbudget.py:167 | budget 1000 with a beer at 200 buys 4 bottles for 800: the strict test never spends the budget exactly |
| `BeerBudget.DuplicateNamesOvercount` | beerbudget.py:171-176 | two beers named "a" at 10 and 20 with budget 40: one of each is bought for 30, yet the report's total is 60, above the budget |
| `Words.JoinSplit` | beerbudget.py:86 | joining with single spaces undoes splitting at spaces, for every string |
| `Words.SplitJoin` | beerbudget.py:90 | one or more space-free tokens joined with single spaces split back into exactly those tokens, so joining a name loses nothing |
| `Prices.ParseInt` | beerbudget.py:91 | a price token is accepted exactly when it is decimal digits, optionally after one '+' or '-'; a value read after '-' is never positive and any other value is never negative |
| `Prices.ParseShowInt` | beerbudget.py:91 | reading back an integer written in decimal gives the same integer |
| `Prices.ParseIntSpelling` | beerbudget.py:91 | for every non-empty run of digits, a leading '0' or '+' leaves the value unchanged and a leading '-' negates it, as `float` and `int` read them; with the canonical round trip this fixes the value of every accepted token |
| `Prices.ParseSpellingExample` | beerbudget.py:91 | "+29", "029" and "-029" read as 29, 29 and −29, as `float` reads them |
| `Arguments.ParseBeer` | beerbudget.py:89-92 | an argument without tokens fails; otherwise it is read exactly when its last token is a price, fails with that token when it is not, takes its price from that token, and has as name the other tokens joined with single spaces (so a one-token argument gets the empty name and a token holding a space keeps it); when there is at least one name token and none contains a space, the name splits back into those tokens |
| `Arguments.ParseBeers` | beerbudget.py:88-92 | parsing succeeds exactly when every `--beer` argument parses; it then gives one beer per argument in argument order; otherwise it fails with the error of the first argument that does not parse |
| `Arguments.ParseBeerTokens` | beerbudget.py:88-92 | a beer written as its name's words followed by its price reads back as the same beer |
| `Arguments.ParseBeersTokens` | beerbudget.py:88-92 | a list of beers written as `--beer` arguments reads back as the same list, in order |
| `Arguments.ParseSearch` | beerbudget.py:84-86 | one search string per `--search` argument, in argument order, each the argument's tokens joined with single spaces, and each splitting back into those tokens when they are non-empty and space-free |
| `Arguments.ParseArgumentsExample` | beerbudget.py:187-194 | `30 --beer omnipollo 29 --beer svensk kronvodka 200 --search omnipollo leon` reads as budget 30, beers omnipollo/29 and svensk kronvodka/200, and search "omnipollo leon" |

## Left out

- Catalogue handling (`search`, `check_cache`, `download_systembolaget`, `save_cache`, `find_beers`): HTTP, files, file modification times, the clock and XML parsing are all I/O.
- `choose_multiple_matches`: interactive `input()` and Python regular expressions, a foreign library. The beers it appends reach the model only as part of the beer list that `FindBags` receives.
- `argparse` setup and `parse_args`: a library wrapper. Only the token-to-beer and token-to-search steps are modelled. The budget's `type=int` conversion appears only in `Arguments.ParseArgumentsExample`, through the same integer reader.
- Floating-point prices: prices are whole numbers. `Prices.ParseInt` accepts an optional sign and ASCII decimal digits. Python's `float` also accepts decimals such as `49.90`, exponents and `inf`/`nan`; the model rejects those as `InvalidPrice`. Float rounding is not modelled.
- `Prices.ParseInt` also rejects some whole-number tokens that Python's `float` (for a price) and `int` (for the budget) accept: tokens with surrounding whitespace (`" 29"`), digit groups with underscores (`"1_000"`, PEP 515), and non-ASCII Unicode decimal digits (such as Arabic-Indic digits). The model reports these tokens as `InvalidPrice`.
- `Allocation.Allocate`: requires non-negative prices. With a negative price the source's loop may never terminate, so no result is defined for it.
- Printing: the line formats of `find_bags` and of the main block. Only the computed counts and totals are modelled.
- The `Test` class: its network and file tests are I/O. Its parse assertions appear as `Arguments.ParseArgumentsExample`.
- The multi-beer examples in the usage text (beerbudget.py:16-27) describe results that `find_bags` does not compute, so they are not stated.
- `Words.Split` is Python's `str.split(" ")`. The program itself never calls it. It is here only as the inverse of joining.

## Findings

| source | as written | input that shows it | evidently intended | confidence | as-written member | corrected member |
|---|---|---|---|---|---|---|
| beerbudget.py:171-176 | each beer's count is the number of purchases with the same name, and the total sums count × price over all beers, so purchases of beers that share a name are counted on every such line | beers ("a", 10) and ("a", 20), budget 40: one of each is bought for 30; each line shows 2 bottles and the total shows 60, above the budget | each line counts that beer's own purchases, so the total is the money spent | medium; not executed | `BeerBudget.DuplicateNamesOvercount` | `Reporting.ReportByLine` |

`FindBags` keeps the as-written report, because it models the program. The
corrected report `Reporting.ReportByLine` is proved to total the money spent
for every bag (`Reporting.LineTotalIsCost`).

=== FILE: allocation.dfy ===
/**
 The greedy round-robin allocator of `Input.find_bags`: passes over the beers in
 list order, buying one of each beer whose price still fits strictly below the
 budget, until a pass leaves the money spent unchanged.
 */
module Allocation {
  import opened Beers

  /** After the last pass no beer with a positive price fits any more: adding it
      would reach or pass the budget. */
  predicate Saturated(beers: seq<Beer>, budget: int, spent: int)
  {
    forall j :: 0 <= j < |beers| && beers[j].price > 0 ==> spent + beers[j].price >= budget
  }

  /** The purchases made by the inner loop over `beers[from..]` when `total` has
      been spent on entry: a beer is bought when the total plus its price stays
      strictly below the budget, and the total then grows by that price. */
  function Pass(beers: seq<Beer>, budget: int, total: int, from: nat): (added: seq<nat>)
    requires from <= |beers|
    ensures ValidBag(beers, added)
    ensures forall k :: 0 <= k < |added| ==> from <= added[k]
    ensures added != [] ==> total + Cost(beers, added) < budget
    ensures NonNegativePrices(beers) ==> Cost(beers, added) >= 0
    ensures NonNegativePrices(beers) && Cost(beers, added) == 0 ==>
              forall j :: from <= j < |beers| && beers[j].price > 0 ==> total + beers[j].price >= budget
    decreases |beers| - from
  {
    if from == |beers| then []
    else if total + beers[from].price < budget then
      var rest := Pass(beers, budget, total + beers[from].price, from + 1);
      CostConcat(beers, [from], rest);
      assert [from][..0] == [];
      [from] + rest
    else
      Pass(beers, budget, total, from + 1)
  }

  /** Whole passes over the beers, starting from `bag`, until a pass adds
      nothing to the money spent; the pass that ends the loop is kept, since the
      source appends its zero-priced purchases too. */
  function Passes(beers: seq<Beer>, budget: int, bag: seq<nat>): (result: seq<nat>)
    requires NonNegativePrices(beers) && ValidBag(beers, bag)
    requires Cost(beers, bag) < budget
    ensures ValidBag(beers, result) && bag <= result
    ensures Cost(beers, bag) <= Cost(beers, result) < budget
    ensures Saturated(beers, budget, Cost(beers, result))
    decreases budget - Cost(beers, bag)
  {
    var added := Pass(beers, budget, Cost(beers, bag), 0);
    CostConcat(beers, bag, added);
    if Cost(beers, added) == 0 then bag + added
    else Passes(beers, budget, bag + added)
  }

  /** The bag the allocator fills for `budget`. A budget of at most 1 never
      enters the loop (the source starts from the sentinel spent value 1). */
  function Greedy(beers: seq<Beer>, budget: int): (bag: seq<nat>)
    requires NonNegativePrices(beers)
    ensures ValidBag(beers, bag)
    ensures bag != [] ==> 0 <= Cost(beers, bag) < budget
    ensures budget > 1 ==> Saturated(beers, budget, Cost(beers, bag))
  {
    if budget <= 1 then [] else Passes(beers, budget, [])
  }

  /** One pass of the inner `for` loop of `find_bags`: the bag grows by exactly
      the purchases `Pass` describes, and the running total by their cost. */
  method RunPass(beers: seq<Beer>, budget: int, bag0: seq<nat>, spent0: int)
    returns (bag: seq<nat>, spent: int)
    requires ValidBag(beers, bag0) && spent0 == Cost(beers, bag0) && spent0 < budget
    ensures ValidBag(beers, bag) && spent == Cost(beers, bag)
    ensures bag == bag0 + Pass(beers, budget, spent0, 0)
    ensures spent < budget
  {
    bag, spent := bag0, spent0;
    ghost var target := bag0 + Pass(beers, budget, spent0, 0);
    for i := 0 to |beers|
      invariant ValidBag(beers, bag) && spent == Cost(beers, bag) && spent < budget
      invariant bag + Pass(beers, budget, spent, i) == target
    {
      if spent + beers[i].price < budget {
        PassBuys(beers, budget, bag, spent, i);
        CostAppend(beers, bag, i);
        bag := bag + [i];
        spent := spent + beers[i].price;
      } else {
        PassSkips(beers, budget, bag, spent, i);
      }
    }
  }

  /** A pass that buys beer `i` continues from the next beer with the price
      added to the total. */
  lemma PassBuys(beers: seq<Beer>, budget: int, bag: seq<nat>, total: int, i: nat)
    requires i < |beers| && total + beers[i].price < budget
    ensures bag + Pass(beers, budget, total, i) == (bag + [i]) + Pass(beers, budget, total + beers[i].price, i + 1)
  {
    var rest := Pass(beers, budget, total + beers[i].price, i + 1);
    assert Pass(beers, budget, total, i) == [i] + rest;
    assert bag + ([i] + rest) == (bag + [i]) + rest;
  }

  /** A pass that skips beer `i` continues from the next beer with the same
      total. */
  lemma PassSkips(beers: seq<Beer>, budget: int, bag: seq<nat>, total: int, i: nat)
    requires i < |beers| && total + beers[i].price >= budget
    ensures bag + Pass(beers, budget, total, i) == bag + Pass(beers, budget, total, i + 1)
  {
  }

  /** One more purchase of beer `i` costs its price more. */
  lemma CostAppend(beers: seq<Beer>, bag: seq<nat>, i: nat)
    requires ValidBag(beers, bag) && i < |beers|
    ensures ValidBag(beers, bag + [i])
    ensures Cost(beers, bag + [i]) == Cost(beers, bag) + beers[i].price
  {
    CostConcat(beers, bag, [i]);
    assert [i][..0] == [];
  }

  /** The allocation loop of `find_bags`, with `price` the total at the start of
      the latest pass (initially the sentinel 1) and `spent` the running total
      (`price0` in the source). */
  method Allocate(beers: seq<Beer>, budget: int) returns (bag: seq<nat>, spent: int)
    requires NonNegativePrices(beers)
    ensures ValidBag(beers, bag) && spent == Cost(beers, bag)
    ensures bag == Greedy(beers, budget)
    ensures budget <= 1 ==> bag == [] && spent == 0
    ensures 0 <= spent
    ensures bag != [] ==> spent < budget
    ensures budget > 1 ==> Saturated(beers, budget, spent)
  {
    bag := [];
    var price := 1;
    spent := 0;
    while price != spent && price < budget
      invariant ValidBag(beers, bag) && spent == Cost(beers, bag) && 0 <= spent
      invariant price < budget ==> spent < budget
      invariant price >= budget ==> price == 1 && bag == []
      invariant price == spent ==> Saturated(beers, budget, spent)
      invariant Greedy(beers, budget) ==
                  if price != spent && price < budget then Passes(beers, budget, bag) else bag
      decreases budget - spent, if price != spent then 1 else 0
    {
      price := spent;
      ghost var start := bag;
      ghost var added := Pass(beers, budget, price, 0);
      bag, spent := RunPass(beers, budget, bag, spent);
      CostConcat(beers, start, added);
    }
  }
}

=== FILE: arguments.dfy ===
/**
 Turning the token lists of the command line into beers and search strings
 (`Input.parse_beers` and `Input.parse_search`). Each `--beer` argument is a
 list of tokens whose last token is the price and whose other tokens, joined
 with single spaces, are the name; each `--search` argument becomes its tokens
 joined with single spaces.
 */
module Arguments {
  import opened Beers
  import opened Words
  import opened Prices

  /** Why a `--beer` argument could not be read: it had no token at all (the
      source fails indexing its last token), or its last token is not a price
      (the source's `float` conversion fails). */
  datatype ParseError = MissingPrice | InvalidPrice(token: string)

  datatype Result<T> = Ok(value: T) | Err(error: ParseError)

  /** One `--beer` argument: all tokens but the last form the name, the last
      token is the price. An argument without tokens, or whose last token is
      not a price, is an error; the name of a well-formed argument splits back
      into the tokens it was joined from. */
  function ParseBeer(tokens: seq<string>): (r: Result<Beer>)
    ensures |tokens| == 0 ==> r == Err(MissingPrice)
    ensures |tokens| > 0 ==> (r.Ok? <==> ParseInt(tokens[|tokens| - 1]).Some?)
    ensures |tokens| > 0 && r.Err? ==> r.error == InvalidPrice(tokens[|tokens| - 1])
    ensures r.Ok? ==> Some(r.value.price) == ParseInt(tokens[|tokens| - 1])
    ensures r.Ok? ==> r.value.name == Join(tokens[..|tokens| - 1])
    ensures r.Ok? && |tokens| >= 2 && SpaceFree(tokens[..|tokens| - 1]) ==>
              Split(r.value.name) == tokens[..|tokens| - 1]
  {
    if |tokens| == 0 then Err(MissingPrice)
    else
      match ParseInt(tokens[|tokens| - 1])
      case None => Err(InvalidPrice(tokens[|tokens| - 1]))
      case Some(p) =>
        SplitJoin(tokens[..|tokens| - 1]);
        Ok(Beer(Join(tokens[..|tokens| - 1]), p))
  }

  /** The tokens a beer is written as on the command line: the words of its
      name, then its price. */
  function BeerTokens(b: Beer): (tokens: seq<string>)
    ensures |tokens| >= 2
  {
    Split(b.name) + [ShowInt(b.price)]
  }

  /** Every `--beer` argument in order. The first argument that cannot be read
      ends the parse with its error, as the source's exception does; otherwise
      there is one beer per argument, in argument order. */
  function ParseBeers(args: seq<seq<string>>): (r: Result<seq<Beer>>)
    ensures r.Ok? <==> forall i :: 0 <= i < |args| ==> ParseBeer(args[i]).Ok?
    ensures r.Ok? ==> |r.value| == |args|
    ensures r.Ok? ==> forall i :: 0 <= i < |args| ==> ParseBeer(args[i]) == Ok(r.value[i])
    ensures r.Err? ==> exists i :: 0 <= i < |args| && ParseBeer(args[i]) == Err(r.error)
                                  && forall k :: 0 <= k < i ==> ParseBeer(args[k]).Ok?
  {
    if |args| == 0 then Ok([])
    else
      match ParseBeer(args[0])
      case Err(e) => Err(e)
      case Ok(b) =>
        match ParseBeers(args[1..])
        case Err(e) =>
          FirstErrorShift(args, e);
          Err(e)
        case Ok(bs) =>
          ParsedShift(args, b, bs);
          Ok([b] + bs)
  }

  /** The first failing argument after a readable first argument is the first
      failing argument of the whole list. */
  lemma FirstErrorShift(args: seq<seq<string>>, e: ParseError)
    requires |args| > 0 && ParseBeer(args[0]).Ok?
    requires exists i :: 0 <= i < |args[1..]| && ParseBeer(args[1..][i]) == Err(e)
                         && forall k :: 0 <= k < i ==> ParseBeer(args[1..][k]).Ok?
    ensures exists i :: 0 <= i < |args| && ParseBeer(args[i]) == Err(e)
                        && forall k :: 0 <= k < i ==> ParseBeer(args[k]).Ok?
  {
    var i :| 0 <= i < |args[1..]| && ParseBeer(args[1..][i]) == Err(e)
              && forall k :: 0 <= k < i ==> ParseBeer(args[1..][k]).Ok?;
    assert args[i + 1] == args[1..][i];
    forall k | 0 <= k < i + 1 ensures ParseBeer(args[k]).Ok? {
      if k > 0 {
        assert args[k] == args[1..][k - 1];
      }
    }
  }

  /** A readable first argument in front of readable remaining arguments. */
  lemma ParsedShift(args: seq<seq<string>>, b: Beer, bs: seq<Beer>)
    requires |args| > 0 && ParseBeer(args[0]) == Ok(b)
    requires |bs| == |args| - 1
    requires forall i :: 0 <= i < |args[1..]| ==> ParseBeer(args[1..][i]) == Ok(bs[i])
    ensures forall i :: 0 <= i < |args| ==> ParseBeer(args[i]) == Ok(([b] + bs)[i])
  {
    forall i | 0 <= i < |args| ensures ParseBeer(args[i]) == Ok(([b] + bs)[i]) {
      if i > 0 {
        assert args[i] == args[1..][i - 1];
      }
    }
  }

  /** Every search argument joined into one search string, in argument order;
      each string splits back into the non-empty, space-free tokens it was
      joined from. */
  function ParseSearch(searches: seq<seq<string>>): (r: seq<string>)
    ensures |r| == |searches|
    ensures forall i :: 0 <= i < |searches| ==> r[i] == Join(searches[i])
    ensures forall i :: 0 <= i < |searches| && |searches[i]| >= 1 && SpaceFree(searches[i]) ==>
              Split(r[i]) == searches[i]
  {
    if |searches| == 0 then []
    else
      SplitJoin(searches[0]);
      [Join(searches[0])] + ParseSearch(searches[1..])
  }

  /** A beer written as command-line tokens reads back as the same beer. */
  lemma ParseBeerTokens(b: Beer)
    ensures ParseBeer(BeerTokens(b)) == Ok(b)
  {
    var tokens := BeerTokens(b);
    assert tokens[..|tokens| - 1] == Split(b.name);
    JoinSplit(b.name);
    ParseShowInt(b.price);
  }

  /** A list of beers written as `--beer` arguments reads back as the same list. */
  lemma {:induction false} ParseBeersTokens(beers: seq<Beer>)
    ensures ParseBeers(seq(|beers|, i requires 0 <= i < |beers| => BeerTokens(beers[i]))) == Ok(beers)
  {
    var args := seq(|beers|, i requires 0 <= i < |beers| => BeerTokens(beers[i]));
    forall i | 0 <= i < |beers|
      ensures ParseBeer(args[i]) == Ok(beers[i])
    {
      ParseBeerTokens(beers[i]);
    }
    var r := ParseBeers(args);
    assert r.Ok?;
    assert r.value == beers;
  }

  /** The command line `30 --beer omnipollo 29 --beer svensk kronvodka 200
      --search omnipollo leon`: the budget reads as 30, the beers as omnipollo
      at 29 and svensk kronvodka at 200, the search as "omnipollo leon". */
  lemma ParseArgumentsExample()
    ensures ParseInt("30") == Some(30)
    ensures ParseBeers([["omnipollo", "29"], ["svensk", "kronvodka", "200"]])
            == Ok([Beer("omnipollo", 29), Beer("svensk kronvodka", 200)])
    ensures ParseSearch([["omnipollo", "leon"]]) == ["omnipollo leon"]
  {
    ParseExampleBudget();
    ParseExampleBeer1();
    ParseExampleBeer2();
    ParseBeersPair(["omnipollo", "29"], ["svensk", "kronvodka", "200"],
                   Beer("omnipollo", 29), Beer("svensk kronvodka", 200));
    ParseExampleSearch();
  }

  /** The budget token of the example command line. */
  lemma ParseExampleBudget()
    ensures ParseInt("30") == Some(30)
  {
    assert ShowInt(30) == "30";
    ParseShowInt(30);
  }

  /** The price token of the first `--beer` argument. */
  lemma ParseExamplePrice1()
    ensures ParseInt("29") == Some(29)
  {
    assert ShowInt(29) == "29";
    ParseShowInt(29);
  }

  /** The price token of the second `--beer` argument. */
  lemma ParseExamplePrice2()
    ensures ParseInt("200") == Some(200)
  {
    assert ShowInt(200) == "200";
    ParseShowInt(200);
  }

  /** The first `--beer` argument of the example command line. */
  lemma ParseExampleBeer1()
    ensures ParseBeer(["omnipollo", "29"]) == Ok(Beer("omnipollo", 29))
  {
    ParseExamplePrice1();
    assert ["omnipollo", "29"][..1] == ["omnipollo"];
  }

  /** The second `--beer` argument of the example command line. */
  lemma ParseExampleBeer2()
    ensures ParseBeer(["svensk", "kronvodka", "200"]) == Ok(Beer("svensk kronvodka", 200))
  {
    ParseExamplePrice2();
    assert ["svensk", "kronvodka", "200"][..2] == ["svensk", "kronvodka"];
    JoinCons("svensk", ["kronvodka"]);
    assert ["svensk"] + ["kronvodka"] == ["svensk", "kronvodka"];
    assert "svensk" + " " + "kronvodka" == "svensk kronvodka";
  }

  /** The `--search` argument of the example command line. */
  lemma ParseExampleSearch()
    ensures ParseSearch([["omnipollo", "leon"]]) == ["omnipollo leon"]
  {
    JoinCons("omnipollo", ["leon"]);
    assert ["omnipollo"] + ["leon"] == ["omnipollo", "leon"];
    assert "omnipollo" + " " + "leon" == "omnipollo leon";
  }

  /** Two `--beer` arguments that each read as a beer read as those two beers. */
  lemma ParseBeersPair(a1: seq<string>, a2: seq<string>, b1: Beer, b2: Beer)
    requires ParseBeer(a1) == Ok(b1) && ParseBeer(a2) == Ok(b2)
    ensures ParseBeers([a1, a2]) == Ok([b1, b2])
  {
    var args := [a1, a2];
    assert ParseBeer(args[0]).Ok? && ParseBeer(args[1]).Ok?;
    var r := ParseBeers(args);
    assert ParseBeer(args[0]) == Ok(r.value[0]) && ParseBeer(args[1]) == Ok(r.value[1]);
    assert r.value == [b1, b2];
  }
}

=== FILE: beerbudget.dfy ===
/**
 `Input.find_bags` as a whole: allocate the budget greedily, then report each
 beer's count and the total; with the properties of concrete runs that the
 program's usage text shows.

 The worked examples take their beer list and budget as parameters
 fixed by `requires`. Applied to literal arguments, Dafny would unfold `Greedy`
 through every pass of the allocation, which makes those proofs needlessly
 expensive.
 */
module BeerBudget {
  import opened Beers
  import opened Allocation
  import opened Reporting

  /** Allocation followed by the source's report. */
  method FindBags(beers: seq<Beer>, budget: int)
    returns (bag: seq<nat>, spent: int, counts: seq<nat>, total: int)
    requires NonNegativePrices(beers)
    ensures ValidBag(beers, bag) && spent == Cost(beers, bag)
    ensures bag == Greedy(beers, budget)
    ensures 0 <= spent && (bag != [] ==> spent < budget)
    ensures budget > 1 ==> Saturated(beers, budget, spent)
    ensures budget <= 1 ==> bag == [] && total == 0 && forall i :: 0 <= i < |counts| ==> counts[i] == 0
    ensures |counts| == |beers|
    ensures forall i :: 0 <= i < |beers| ==> counts[i] == multiset(Names(beers, bag))[beers[i].name]
    ensures total == PurchaseTotal(beers, bag)
    ensures DistinctNames(beers) ==> total == spent
  {
    bag, spent := Allocate(beers, budget);
    counts, total := Report(beers, bag);
  }

  /** `Allocation.CostAppend` for one more bottle of the first beer, stated on
      `Copies` so that the single-beer proofs below need not unfold it. */
  lemma CostCopiesStep(beers: seq<Beer>, k: nat)
    requires |beers| > 0
    ensures ValidBag(beers, Copies(k)) && ValidBag(beers, Copies(k + 1))
    ensures Cost(beers, Copies(k + 1)) == Cost(beers, Copies(k)) + beers[0].price
  {
    CostCopies(beers, k);
    CostAppend(beers, Copies(k), 0);
  }

  /** With a positive price, fewer bottles cost at least one price less. */
  lemma {:induction false} CostCopiesMonotone(beers: seq<Beer>, k: nat, m: nat)
    requires |beers| > 0 && beers[0].price > 0 && k < m
    ensures ValidBag(beers, Copies(k)) && ValidBag(beers, Copies(m))
    ensures Cost(beers, Copies(k)) + beers[0].price <= Cost(beers, Copies(m))
    decreases m - k
  {
    CostCopiesStep(beers, k);
    if k + 1 < m {
      CostCopiesMonotone(beers, k + 1, m);
    }
  }

  /** With a single beer, a pass buys one bottle exactly when it still fits. */
  lemma SingleBeerPass(b: Beer, budget: int, c: int)
    ensures Pass([b], budget, c, 0) == if c + b.price < budget then [0] else []
  {
  }

  /** With a single beer priced `p > 0`, passes starting from `k` bottles stop
      at the `m` bottles that cost less than the budget while `m + 1` do not. */
  lemma {:induction false} SingleBeerPasses(b: Beer, budget: int, k: nat, m: nat)
    requires b.price > 0 && k <= m
    requires ValidBag([b], Copies(m))
    requires Cost([b], Copies(m)) < budget <= Cost([b], Copies(m)) + b.price
    ensures ValidBag([b], Copies(k)) && Cost([b], Copies(k)) < budget
    ensures Passes([b], budget, Copies(k)) == Copies(m)
    decreases m - k
  {
    CostCopiesStep([b], k);
    if k < m {
      CostCopiesMonotone([b], k, m);
      SingleBeerBuys(b, budget, k);
      SingleBeerPasses(b, budget, k + 1, m);
    } else {
      SingleBeerStops(b, budget, k);
    }
  }

  /** While one more bottle fits, a pass over the single beer buys it and the
      passes go on from one bottle more. */
  lemma SingleBeerBuys(b: Beer, budget: int, k: nat)
    requires b.price > 0
    requires ValidBag([b], Copies(k)) && Cost([b], Copies(k)) + b.price < budget
    ensures ValidBag([b], Copies(k + 1)) && Cost([b], Copies(k + 1)) < budget
    ensures Passes([b], budget, Copies(k)) == Passes([b], budget, Copies(k + 1))
  {
    CostCopiesStep([b], k);
    SingleBeerPass(b, budget, Cost([b], Copies(k)));
    assert Cost([b], [0]) == b.price by {
      assert [0][..0] == [];
    }
    assert Copies(k) + [0] == Copies(k + 1);
  }

  /** Once one more bottle no longer fits, the passes over the single beer end
      with the bottles bought so far. */
  lemma SingleBeerStops(b: Beer, budget: int, k: nat)
    requires b.price > 0
    requires ValidBag([b], Copies(k)) && Cost([b], Copies(k)) < budget <= Cost([b], Copies(k)) + b.price
    ensures Passes([b], budget, Copies(k)) == Copies(k)
  {
    SingleBeerPass(b, budget, Cost([b], Copies(k)));
    assert Copies(k) + [] == Copies(k);
  }

  /** The quotient `x / p` is the largest `m` with `m * p <= x`. */
  lemma DivBounds(x: int, p: int)
    requires p > 0
    ensures (x / p) * p <= x < (x / p) * p + p
  {
  }

  /** A single beer priced `p > 0` is bought `(budget - 1) / p` times: the
      largest number of bottles whose cost stays strictly below the budget. */
  lemma SingleBeer(b: Beer, budget: int)
    requires b.price > 0 && budget > 1
    ensures Greedy([b], budget) == Copies((budget - 1) / b.price)
  {
    var m := (budget - 1) / b.price;
    CostCopies([b], m);
    DivBounds(budget - 1, b.price);
    SingleBeerPasses(b, budget, 0, m);
    assert Copies(0) == [];
  }

  /** `n` purchases of the only beer are counted `n` times on its line. */
  lemma {:induction false} NameCountCopies(beers: seq<Beer>, n: nat)
    requires |beers| == 1
    ensures ValidBag(beers, Copies(n))
    ensures NameCount(beers, Copies(n), beers[0].name) == n
  {
    if n > 0 {
      NameCountCopies(beers, n - 1);
      assert Copies(n)[..n - 1] == Copies(n - 1);
    }
  }

  /** With a single beer priced `p > 0` and a budget above 1, the report shows
      `(budget - 1) / p` bottles and a total equal to the money spent. */
  lemma SingleBeerReport(b: Beer, budget: int)
    requires b.price > 0 && budget > 1
    ensures ValidBag([b], Greedy([b], budget))
    ensures |Greedy([b], budget)| == (budget - 1) / b.price
    ensures Cost([b], Greedy([b], budget)) == (budget - 1) / b.price * b.price
    ensures multiset(Names([b], Greedy([b], budget)))[b.name] == (budget - 1) / b.price
    ensures PurchaseTotal([b], Greedy([b], budget)) == (budget - 1) / b.price * b.price
  {
    var beers, m := [b], (budget - 1) / b.price;
    SingleBeer(b, budget);
    CostCopies(beers, m);
    NameCountCopies(beers, m);
    NameCountIsMultiplicity(beers, Copies(m), b.name);
    PurchaseTotalDistinct(beers, Copies(m));
  }

  /** Budget 1000 and omnipollo leon at 29: 34 bottles for 986, and the report
      shows 34 bottles and a total of 986. */
  lemma OmnipolloExample(b: Beer, budget: int)
    requires b == Beer("omnipollo leon", 29) && budget == 1000
    ensures |Greedy([b], budget)| == 34
    ensures Cost([b], Greedy([b], budget)) == 986
    ensures multiset(Names([b], Greedy([b], budget)))[b.name] == 34
    ensures PurchaseTotal([b], Greedy([b], budget)) == 986
  {
    SingleBeerReport(b, budget);
  }

  /** The fit test is strict, so the budget is never spent exactly: budget 1000
      and a beer at 200 buys 4 bottles for 800, not 5 for 1000. */
  lemma StrictFitExample(b: Beer, budget: int)
    requires b == Beer("vodka", 200) && budget == 1000
    ensures |Greedy([b], budget)| == 4
    ensures Cost([b], Greedy([b], budget)) == 800
  {
    SingleBeerReport(b, budget);
  }

  /** Two beers named "a", at 10 and 20, with budget 40: one of each is bought
      for 30, but each line counts both purchases, so the report's total is 60,
      above the budget. */
  lemma DuplicateNamesOvercount(beers: seq<Beer>, budget: int)
    requires beers == [Beer("a", 10), Beer("a", 20)] && budget == 40
    ensures Greedy(beers, budget) == [0, 1]
    ensures Cost(beers, [0, 1]) == 30
    ensures PurchaseTotal(beers, [0, 1]) == 60 > budget
  {
    DuplicateNamesCost(beers);
    DuplicateNamesPasses(beers, budget);
    DuplicateNamesTotals(beers);
  }

  /** The bottles bought in the example with two beers named "a". */
  lemma DuplicateNamesPasses(beers: seq<Beer>, budget: int)
    requires beers == [Beer("a", 10), Beer("a", 20)] && budget == 40
    ensures Greedy(beers, budget) == [0, 1]
  {
    DuplicateNamesCost(beers);
    DuplicateNamesFirstPass(beers, budget);
    DuplicateNamesLastPass(beers, budget);
    assert Passes(beers, budget, [0, 1]) == [0, 1] by {
      assert [0, 1] + [] == [0, 1];
    }
    assert Passes(beers, budget, []) == [0, 1] by {
      assert Cost(beers, []) == 0;
      assert [] + [0, 1] == [0, 1];
    }
  }

  /** One bottle of each of the two beers named "a" costs 30. */
  lemma DuplicateNamesCost(beers: seq<Beer>)
    requires beers == [Beer("a", 10), Beer("a", 20)]
    ensures ValidBag(beers, [0, 1]) && Cost(beers, [0, 1]) == 30
  {
    assert [0][..0] == [];
    assert Cost(beers, [0]) == 10;
    assert [0, 1][..1] == [0];
  }

  /** From nothing spent, the first pass buys one bottle of each beer. */
  lemma DuplicateNamesFirstPass(beers: seq<Beer>, budget: int)
    requires beers == [Beer("a", 10), Beer("a", 20)] && budget == 40
    ensures Pass(beers, budget, 0, 0) == [0, 1]
  {
    assert Pass(beers, budget, 30, 2) == [];
    assert Pass(beers, budget, 10, 1) == [1];
  }

  /** With 30 spent, the next pass buys nothing. */
  lemma DuplicateNamesLastPass(beers: seq<Beer>, budget: int)
    requires beers == [Beer("a", 10), Beer("a", 20)] && budget == 40
    ensures Pass(beers, budget, 30, 0) == []
  {
    assert Pass(beers, budget, 30, 1) == [];
  }

  /** The report total in the example with two beers named "a". */
  lemma DuplicateNamesTotals(beers: seq<Beer>)
    requires beers == [Beer("a", 10), Beer("a", 20)]
    ensures PurchaseTotal(beers, [0, 1]) == 60
  {
    assert |beers| == 2 && beers[0].name == "a" && beers[1].name == "a";
    assert NamePrice(beers, 1, "a") == 10;
    assert NamePrice(beers, 2, "a") == 30;
    assert PurchaseTotal(beers, [0]) == 30 by {
      assert [0][..0] == [];
      assert PurchaseTotal(beers, [0]) == PurchaseTotal(beers, []) + NamePrice(beers, |beers|, beers[0].name);
    }
    assert [0, 1][..1] == [0];
  }
}

=== FILE: beers.dfy ===
/**
 The data model shared by the allocator and the report: a beer is a name and a
 unit price, and a bag is the sequence of purchases in the order they were made.

 Prices are whole numbers in the same unit as the budget. A purchase is recorded
 as the position of the bought beer in the beer list: the source keeps
 references to the very beer objects of its list, so two purchases are of the
 same beer exactly when they hold the same position, whatever the names say.
 */
module Beers {

  /** A beer with a name (not necessarily unique) and a unit price. */
  datatype Beer = Beer(name: string, price: int)

  /** No beer has a negative price. */
  predicate NonNegativePrices(beers: seq<Beer>)
  {
    forall i :: 0 <= i < |beers| ==> beers[i].price >= 0
  }

  /** Every purchase in the bag refers to a beer of the list. */
  predicate ValidBag(beers: seq<Beer>, bag: seq<nat>)
  {
    forall k :: 0 <= k < |bag| ==> bag[k] < |beers|
  }

  /** No two beers of the list share a name. */
  predicate DistinctNames(beers: seq<Beer>)
  {
    forall i, j :: 0 <= i < j < |beers| ==> beers[i].name != beers[j].name
  }

  /** The money spent on the bag: the sum of the prices of its purchases. */
  function Cost(beers: seq<Beer>, bag: seq<nat>): (c: int)
    requires ValidBag(beers, bag)
    ensures NonNegativePrices(beers) ==> c >= 0
  {
    if |bag| == 0 then 0
    else Cost(beers, bag[..|bag| - 1]) + beers[bag[|bag| - 1]].price
  }

  /** The cost of a bag built in two parts is the sum of the parts' costs. */
  lemma {:induction false} CostConcat(beers: seq<Beer>, a: seq<nat>, b: seq<nat>)
    requires ValidBag(beers, a) && ValidBag(beers, b)
    ensures ValidBag(beers, a + b)
    ensures Cost(beers, a + b) == Cost(beers, a) + Cost(beers, b)
    decreases |b|
  {
    if |b| == 0 {
      assert a + b == a;
    } else {
      var b' := b[..|b| - 1];
      assert (a + b)[..|a + b| - 1] == a + b';
      CostConcat(beers, a, b');
    }
  }

  /** `n` purchases of the first beer of the list. */
  function Copies(n: nat): (bag: seq<nat>)
    ensures |bag| == n
    ensures forall k :: 0 <= k < n ==> bag[k] == 0
  {
    if n == 0 then [] else Copies(n - 1) + [0]
  }

  /** `n` purchases of a beer priced `p` cost `n * p`. */
  lemma {:induction false} CostCopies(beers: seq<Beer>, n: nat)
    requires |beers| > 0
    ensures ValidBag(beers, Copies(n))
    ensures Cost(beers, Copies(n)) == n * beers[0].price
  {
    if n > 0 {
      CostCopies(beers, n - 1);
      assert Copies(n)[..n - 1] == Copies(n - 1);
      assert n * beers[0].price == (n - 1) * beers[0].price + beers[0].price;
    }
  }
}

=== FILE: prices.dfy ===
/**
 Reading a price token. The source converts the last token of a `--beer`
 argument with Python's `float`; here prices are whole numbers, so a price
 token is an optional sign followed by one or more decimal digits, and any
 other token is rejected, as `float` rejects a token that is not a number.
 */
module Prices {

  datatype Option<T> = None | Some(value: T)

  predicate IsDigit(c: char)
  {
    '0' <= c <= '9'
  }

  predicate AllDigits(s: string)
  {
    forall k :: 0 <= k < |s| ==> IsDigit(s[k])
  }

  /** The value of a string of decimal digits, most significant first. */
  function DigitsValue(s: string): nat
    requires AllDigits(s)
  {
    if |s| == 0 then 0
    else DigitsValue(s[..|s| - 1]) * 10 + ((s[|s| - 1] as int) - ('0' as int))
  }

  /** A natural number in decimal, without leading zeros. */
  function ShowNat(n: nat): (s: string)
    ensures |s| >= 1 && AllDigits(s)
  {
    var d := ['0' + ((n % 10) as char)];
    if n < 10 then d else ShowNat(n / 10) + d
  }

  /** An integer in decimal, with a leading '-' when it is negative. */
  function ShowInt(n: int): string
  {
    if n < 0 then "-" + ShowNat(-n) else ShowNat(n)
  }

  /** A non-empty run of decimal digits, read as a natural number. */
  function ParseNat(s: string): Option<nat>
  {
    if |s| > 0 && AllDigits(s) then Some(DigitsValue(s)) else None
  }

  /** A price token: an optional '+' or '-' followed by decimal digits. Exactly
      those tokens are accepted; a value read after '-' is never positive and
      any other value is never negative. */
  function ParseInt(s: string): (r: Option<int>)
    ensures r.Some? <==> |s| > 0 && (AllDigits(s) || (|s| > 1 && (s[0] == '-' || s[0] == '+') && AllDigits(s[1..])))
    ensures r.Some? && s[0] == '-' ==> r.value <= 0
    ensures r.Some? && s[0] != '-' ==> r.value >= 0
  {
    if |s| > 0 && (s[0] == '-' || s[0] == '+') then
      match ParseNat(s[1..])
      case Some(n) => Some(if s[0] == '-' then -(n as int) else n as int)
      case None => None
    else
      match ParseNat(s)
      case Some(n) => Some(n)
      case None => None
  }

  /** Reading back a natural number written in decimal gives the number. */
  lemma {:induction false} DigitsValueShowNat(n: nat)
    ensures DigitsValue(ShowNat(n)) == n
  {
    var d := ['0' + ((n % 10) as char)];
    if n >= 10 {
      DigitsValueShowNat(n / 10);
      var s := ShowNat(n / 10) + d;
      assert s[..|s| - 1] == ShowNat(n / 10);
    }
  }

  /** Reading back an integer written in decimal gives the integer. */
  lemma ParseShowInt(n: int)
    ensures ParseInt(ShowInt(n)) == Some(n)
  {
    if n < 0 {
      DigitsValueShowNat(-n);
      assert ShowInt(n)[1..] == ShowNat(-n);
    } else {
      DigitsValueShowNat(n);
    }
  }

  /** A leading zero does not change the value of a string of digits. */
  lemma {:induction false} DigitsValueLeadingZero(s: string)
    requires AllDigits(s)
    ensures AllDigits("0" + s) && DigitsValue("0" + s) == DigitsValue(s)
  {
    if |s| > 0 {
      DigitsValueLeadingZero(s[..|s| - 1]);
      var z := "0" + s;
      assert z[..|z| - 1] == "0" + s[..|s| - 1];
      assert z[|z| - 1] == s[|s| - 1];
    }
  }

  /** The spellings `float` and `int` accept besides the one `ShowInt` writes:
      leading zeros and a '+' leave the value unchanged, and a '-' negates it.
      With `ParseShowInt` this gives the value of every accepted token. */
  lemma ParseIntSpelling(s: string)
    requires |s| > 0 && AllDigits(s)
    ensures ParseInt("0" + s) == ParseInt(s)
    ensures ParseInt("+" + s) == ParseInt(s)
    ensures ParseInt("-" + s) == Some(-ParseInt(s).value)
  {
    DigitsValueLeadingZero(s);
    assert ("+" + s)[1..] == s;
    assert ("-" + s)[1..] == s;
  }

  /** Like `float`, the reader takes "+29", "029" and "-029" as 29, 29 and -29. */
  lemma ParseSpellingExample()
    ensures ParseInt("+29") == Some(29)
    ensures ParseInt("029") == Some(29)
    ensures ParseInt("-029") == Some(-29)
  {
    assert ShowInt(29) == "29";
    ParseShowInt(29);
    ParseIntSpelling("29");
    assert "0" + "29" == "029" && "+" + "29" == "+29";
    ParseIntSpelling("029");
    assert "-" + "029" == "-029";
  }
}

=== FILE: reporting.dfy ===
/**
 The report that `Input.find_bags` prints after allocating: for every beer of
 the list, in list order, the number of purchases and their cost, then a total.

 The source counts purchases by NAME, so when two beers share a name each of
 their lines counts the purchases of both, and the total no longer equals the
 money spent. `Report` models that; `ReportByLine` counts each purchase on its
 own line only, which is the evidently intended report.
 */
module Reporting {
  import opened Beers

  /** The names of the purchases, in purchase order. */
  function Names(beers: seq<Beer>, bag: seq<nat>): (names: seq<string>)
    requires ValidBag(beers, bag)
    ensures |names| == |bag|
    ensures forall k :: 0 <= k < |bag| ==> names[k] == beers[bag[k]].name
  {
    if |bag| == 0 then []
    else Names(beers, bag[..|bag| - 1]) + [beers[bag[|bag| - 1]].name]
  }

  /** The source's count for a line: how many purchases carry `name`. */
  function NameCount(beers: seq<Beer>, bag: seq<nat>, name: string): nat
    requires ValidBag(beers, bag)
  {
    if |bag| == 0 then 0
    else NameCount(beers, bag[..|bag| - 1], name) + (if beers[bag[|bag| - 1]].name == name then 1 else 0)
  }

  /** The source's count for a line is the multiplicity of the line's name
      among the purchases' names. */
  lemma {:induction false} NameCountIsMultiplicity(beers: seq<Beer>, bag: seq<nat>, name: string)
    requires ValidBag(beers, bag)
    ensures NameCount(beers, bag, name) == multiset(Names(beers, bag))[name]
    decreases |bag|
  {
    if |bag| > 0 {
      var front := bag[..|bag| - 1];
      NameCountIsMultiplicity(beers, front, name);
      assert Names(beers, bag) == Names(beers, front) + [beers[bag[|bag| - 1]].name];
    }
  }

  /** The summed price of the beers among the first `n` whose name is `name`. */
  function NamePrice(beers: seq<Beer>, n: nat, name: string): int
    requires n <= |beers|
  {
    if n == 0 then 0
    else NamePrice(beers, n - 1, name) + (if beers[n - 1].name == name then beers[n - 1].price else 0)
  }

  /** The report total seen from the purchases' side: every purchase contributes
      the price of every beer that shares its name. */
  function PurchaseTotal(beers: seq<Beer>, bag: seq<nat>): int
    requires ValidBag(beers, bag)
  {
    if |bag| == 0 then 0
    else PurchaseTotal(beers, bag[..|bag| - 1]) + NamePrice(beers, |beers|, beers[bag[|bag| - 1]].name)
  }

  /** The report total seen from the lines' side, over the first `n` lines:
      each line's count times that line's price. */
  function LinesTotal(beers: seq<Beer>, bag: seq<nat>, n: nat): int
    requires ValidBag(beers, bag) && n <= |beers|
  {
    if n == 0 then 0
    else LinesTotal(beers, bag, n - 1) + NameCount(beers, bag, beers[n - 1].name) * beers[n - 1].price
  }

  /** One more purchase raises the lines' total by the price of every line
      sharing the purchase's name. */
  lemma {:induction false} LinesTotalAppend(beers: seq<Beer>, bag: seq<nat>, j: nat, n: nat)
    requires ValidBag(beers, bag) && j < |beers| && n <= |beers|
    ensures ValidBag(beers, bag + [j])
    ensures LinesTotal(beers, bag + [j], n) == LinesTotal(beers, bag, n) + NamePrice(beers, n, beers[j].name)
  {
    assert (bag + [j])[..|bag|] == bag;
    if n > 0 {
      LinesTotalAppend(beers, bag, j, n - 1);
      var b := beers[n - 1];
      var c := NameCount(beers, bag, b.name);
      assert NameCount(beers, bag + [j], b.name) == c + (if beers[j].name == b.name then 1 else 0);
      if beers[j].name == b.name {
        assert (c + 1) * b.price == c * b.price + b.price;
      }
    }
  }

  /** Summing the report line by line equals summing it purchase by purchase. */
  lemma {:induction false} LinesTotalIsPurchaseTotal(beers: seq<Beer>, bag: seq<nat>)
    requires ValidBag(beers, bag)
    ensures LinesTotal(beers, bag, |beers|) == PurchaseTotal(beers, bag)
    decreases |bag|
  {
    if |bag| == 0 {
      LinesTotalEmpty(beers, |beers|);
    } else {
      var front := bag[..|bag| - 1];
      var j := bag[|bag| - 1];
      LinesTotalIsPurchaseTotal(beers, front);
      LinesTotalAppend(beers, front, j, |beers|);
      assert front + [j] == bag;
    }
  }

  /** With no purchases every line's count and the total are zero. */
  lemma {:induction false} LinesTotalEmpty(beers: seq<Beer>, n: nat)
    requires n <= |beers|
    ensures LinesTotal(beers, [], n) == 0
  {
    if n > 0 {
      LinesTotalEmpty(beers, n - 1);
    }
  }

  /** When names are distinct, the only beer named like beer `j` is beer `j`. */
  lemma {:induction false} NamePriceDistinct(beers: seq<Beer>, n: nat, j: nat)
    requires DistinctNames(beers) && n <= |beers| && j < |beers|
    ensures NamePrice(beers, n, beers[j].name) == if j < n then beers[j].price else 0
  {
    if n > 0 {
      NamePriceDistinct(beers, n - 1, j);
      if n - 1 != j {
        assert beers[n - 1].name != beers[j].name;
      }
    }
  }

  /** When names are distinct the purchase-side total is the money spent. */
  lemma {:induction false} PurchaseTotalDistinct(beers: seq<Beer>, bag: seq<nat>)
    requires DistinctNames(beers) && ValidBag(beers, bag)
    ensures PurchaseTotal(beers, bag) == Cost(beers, bag)
    decreases |bag|
  {
    if |bag| > 0 {
      PurchaseTotalDistinct(beers, bag[..|bag| - 1]);
      NamePriceDistinct(beers, |beers|, bag[|bag| - 1]);
    }
  }

  /** The report of `find_bags` as written: per beer, the number of purchases
      with that beer's name, and the sum of count times price over the lines. */
  method Report(beers: seq<Beer>, bag: seq<nat>) returns (counts: seq<nat>, total: int)
    requires ValidBag(beers, bag)
    ensures |counts| == |beers|
    ensures forall i :: 0 <= i < |beers| ==> counts[i] == multiset(Names(beers, bag))[beers[i].name]
    ensures total == PurchaseTotal(beers, bag)
    ensures DistinctNames(beers) ==> total == Cost(beers, bag)
    ensures bag == [] ==> total == 0 && forall i :: 0 <= i < |beers| ==> counts[i] == 0
  {
    counts, total := [], 0;
    for i := 0 to |beers|
      invariant |counts| == i
      invariant forall k :: 0 <= k < i ==> counts[k] == NameCount(beers, bag, beers[k].name)
      invariant total == LinesTotal(beers, bag, i)
    {
      var num := NameCount(beers, bag, beers[i].name);
      counts := counts + [num];
      total := total + num * beers[i].price;
    }
    forall i | 0 <= i < |beers|
      ensures counts[i] == multiset(Names(beers, bag))[beers[i].name]
    {
      NameCountIsMultiplicity(beers, bag, beers[i].name);
    }
    LinesTotalIsPurchaseTotal(beers, bag);
    if DistinctNames(beers) {
      PurchaseTotalDistinct(beers, bag);
    }
    if bag == [] {
      assert Names(beers, bag) == [];
    }
  }

  /** The corrected lines' total over the first `n` lines: each line counts the
      purchases of that very beer (its multiplicity in the bag). */
  function LineTotal(beers: seq<Beer>, bag: seq<nat>, n: nat): int
    requires n <= |beers|
  {
    if n == 0 then 0
    else LineTotal(beers, bag, n - 1) + multiset(bag)[n - 1] * beers[n - 1].price
  }

  /** One more purchase of beer `j` raises the corrected total by its price when
      its line is among the first `n`. */
  lemma {:induction false} LineTotalAppend(beers: seq<Beer>, bag: seq<nat>, j: nat, n: nat)
    requires n <= |beers|
    ensures LineTotal(beers, bag + [j], n) == LineTotal(beers, bag, n) + if j < n then beers[j].price else 0
  {
    if n > 0 {
      LineTotalAppend(beers, bag, j, n - 1);
      var c := multiset(bag)[n - 1];
      assert multiset(bag + [j])[n - 1] == c + (if j == n - 1 then 1 else 0);
      if j == n - 1 {
        assert (c + 1) * beers[j].price == c * beers[j].price + beers[j].price;
      }
    }
  }

  /** The corrected total is exactly the money spent, whatever the names. */
  lemma {:induction false} LineTotalIsCost(beers: seq<Beer>, bag: seq<nat>)
    requires ValidBag(beers, bag)
    ensures LineTotal(beers, bag, |beers|) == Cost(beers, bag)
    decreases |bag|
  {
    if |bag| == 0 {
      LineTotalEmpty(beers, |beers|);
    } else {
      var front := bag[..|bag| - 1];
      LineTotalIsCost(beers, front);
      LineTotalAppend(beers, front, bag[|bag| - 1], |beers|);
      assert front + [bag[|bag| - 1]] == bag;
    }
  }

  /** With no purchases the corrected total is zero. */
  lemma {:induction false} LineTotalEmpty(beers: seq<Beer>, n: nat)
    requires n <= |beers|
    ensures LineTotal(beers, [], n) == 0
  {
    if n > 0 {
      LineTotalEmpty(beers, n - 1);
    }
  }

  /** The corrected report: per beer, the number of purchases of that beer, and
      a total that is always the money spent. */
  method ReportByLine(beers: seq<Beer>, bag: seq<nat>) returns (counts: seq<nat>, total: int)
    requires ValidBag(beers, bag)
    ensures |counts| == |beers|
    ensures forall i :: 0 <= i < |beers| ==> counts[i] == multiset(bag)[i]
    ensures total == Cost(beers, bag)
  {
    counts, total := [], 0;
    for i := 0 to |beers|
      invariant |counts| == i
      invariant forall k :: 0 <= k < i ==> counts[k] == multiset(bag)[k]
      invariant total == LineTotal(beers, bag, i)
    {
      var num := multiset(bag)[i];
      counts := counts + [num];
      total := total + num * beers[i].price;
    }
    LineTotalIsCost(beers, bag);
  }
}

=== FILE: words.dfy ===
/**
 Joining command-line tokens with single spaces (Python's `" ".join`), and its
 inverse, splitting a string at every single space (Python's `str.split(" ")`).
 */
module Words {

  /** The word contains no space. */
  predicate NoSpace(w: string)
  {
    forall i :: 0 <= i < |w| ==> w[i] != ' '
  }

  /** No token contains a space. */
  predicate SpaceFree(words: seq<string>)
  {
    forall k :: 0 <= k < |words| ==> NoSpace(words[k])
  }

  /** The pieces of `s` between its spaces; there is always at least one piece,
      and none of them contains a space. */
  function Split(s: string): (words: seq<string>)
    ensures |words| >= 1
    ensures SpaceFree(words)
  {
    if |s| == 0 then [""]
    else
      var rest := Split(s[1..]);
      if s[0] == ' ' then [""] + rest
      else [[s[0]] + rest[0]] + rest[1..]
  }

  /** The tokens joined with one space between consecutive tokens (the join
      of no tokens and of one empty token are both the empty string). */
  function Join(words: seq<string>): string
  {
    if |words| == 0 then ""
    else if |words| == 1 then words[0]
    else words[0] + " " + Join(words[1..])
  }

  /** Splitting gives back the tokens that were joined, when there is at least
      one token and none contains a space. */
  lemma {:induction false} SplitJoin(words: seq<string>)
    ensures |words| >= 1 && SpaceFree(words) ==> Split(Join(words)) == words
  {
    if |words| >= 1 && SpaceFree(words) {
      if |words| == 1 {
        SplitWord(words[0]);
      } else {
        var rest := words[1..];
        assert SpaceFree(rest) by {
          forall k | 0 <= k < |rest| ensures NoSpace(rest[k]) {
            assert rest[k] == words[k + 1];
          }
        }
        SplitJoin(rest);
        SplitWordThen(words[0], Join(rest));
        assert words == [words[0]] + rest;
      }
    }
  }

  /** Joining the pieces of a string gives the string back. */
  lemma {:induction false} JoinSplit(s: string)
    ensures Join(Split(s)) == s
  {
    if |s| > 0 {
      JoinSplit(s[1..]);
      if s[0] == ' ' {
        JoinSplitSpace(s);
      } else {
        JoinSplitLetter(s);
      }
    }
  }

  /** A token in front of at least one more token is followed by a space. */
  lemma JoinCons(w: string, ws: seq<string>)
    requires |ws| >= 1
    ensures Join([w] + ws) == w + " " + Join(ws)
  {
    assert ([w] + ws)[1..] == ws;
  }

  /** The step of `JoinSplit` for a string starting with a space: an empty
      first piece, then the pieces of the rest. */
  lemma JoinSplitSpace(s: string)
    requires |s| > 0 && s[0] == ' ' && Join(Split(s[1..])) == s[1..]
    ensures Join(Split(s)) == s
  {
    var rest := Split(s[1..]);
    assert Split(s) == [""] + rest;
    JoinCons("", rest);
    assert s == [' '] + s[1..];
  }

  /** The step of `JoinSplit` for a string starting with another character: it
      begins the first piece of the rest. */
  lemma JoinSplitLetter(s: string)
    requires |s| > 0 && s[0] != ' ' && Join(Split(s[1..])) == s[1..]
    ensures Join(Split(s)) == s
  {
    var rest := Split(s[1..]);
    assert Split(s) == [[s[0]] + rest[0]] + rest[1..];
    assert s == [s[0]] + s[1..];
    if |rest| == 1 {
      JoinSplitLetterOne(s[0], rest, s[1..]);
    } else {
      JoinSplitLetterMore(s[0], rest[0], rest[1..]);
      assert rest == [rest[0]] + rest[1..];
    }
  }

  /** Prefixing a letter to a single piece prefixes it to the joined string. */
  lemma JoinSplitLetterOne(c: char, rest: seq<string>, t: string)
    requires |rest| == 1 && Join(rest) == t
    ensures Join([[c] + rest[0]] + rest[1..]) == [c] + t
  {
    assert [[c] + rest[0]] + rest[1..] == [[c] + rest[0]];
  }

  /** Prefixing a letter to the first of several pieces prefixes it to the
      joined string. */
  lemma JoinSplitLetterMore(c: char, first: string, more: seq<string>)
    requires |more| >= 1
    ensures Join([[c] + first] + more) == [c] + Join([first] + more)
  {
    SpacedPrefix(c, first, Join(more));
    JoinCons(first, more);
    JoinCons([c] + first, more);
  }

  /** A letter in front of two spaced strings belongs to the first of them. */
  lemma SpacedPrefix(c: char, a: string, t: string)
    ensures ([c] + a) + " " + t == [c] + (a + " " + t)
  {
  }

  /** A space-free word is a single piece. */
  lemma {:induction false} SplitWord(w: string)
    requires NoSpace(w)
    ensures Split(w) == [w]
  {
    if |w| > 0 {
      assert NoSpace(w[1..]) by {
        forall k | 0 <= k < |w[1..]| ensures w[1..][k] != ' ' {
          assert w[1..][k] == w[k + 1];
        }
      }
      SplitWord(w[1..]);
      assert w == [w[0]] + w[1..];
    }
  }

  /** A space-free word followed by a space and more text splits off as the
      first piece. */
  lemma {:induction false} SplitWordThen(w: string, t: string)
    requires NoSpace(w)
    ensures Split(w + " " + t) == [w] + Split(t)
  {
    if |w| == 0 {
      assert w + " " + t == [' '] + t;
      assert (w + " " + t)[1..] == t;
    } else {
      assert NoSpace(w[1..]) by {
        forall k | 0 <= k < |w[1..]| ensures w[1..][k] != ' ' {
          assert w[1..][k] == w[k + 1];
        }
      }
      SplitWordThen(w[1..], t);
      assert (w + " " + t)[1..] == w[1..] + " " + t;
      assert (w + " " + t)[0] == w[0];
      assert w == [w[0]] + w[1..];
    }
  }
}
